=== FILE: README.md ===
# Suno Pro Creator — a Dafny model of the prompt-building core

Suno Pro Creator is a single-page tool that helps a user build two pieces of
text for the Suno music generator: a comma-separated *style line*, composed
from a chosen producer, vocalist persona, rhyme scheme and free-text custom
style, and a set of *lyrics*, written by a language model from a prompt that
the tool fills in from the same choices.

This project models that core as pure Dafny functions over immutable data and
proves properties of it:

- **Tag cleaning** (`Tags`). `cleanPromptTags` turns descriptive text made of
  `[Label: value]` tags into the comma-separated list of values. It splits on
  `]`, drops whitespace-only fragments, keeps the text between the first and
  second colon of each fragment (or drops the first `[` of a fragment without
  a colon), trims, and joins with `", "`.
- **The JavaScript string operations it rests on** (`JsString`). These are
  `split` on one character, `join`, `trim` over the full ECMAScript
  white-space and line-terminator set, and `replace` of the first occurrence,
  all on `seq<char>`.
- **Style line** (`Style`). The composer makes four conditional pushes, in the
  order producer, vocalist, custom style, rhyme scheme, and then joins the
  sections with `", "`. Table sections come out of the tag cleaner. The custom
  section is the trimmed custom text, and only when that text is not blank.
- **Reference tables** (`Constants`). The five tables are modelled as
  arbitrary maps. A lookup is `undefined` (`None`) for a missing key. The
  vocalist's detail is `RAPPERS[name] || SINGERS[name]`.
- **Generation parameters** (`Types`). This is the `GenerationParams` record:
  topic, vocalist and vocalist detail are required, and every other field is
  optional.
- **Prompt and reply handling** (`Gemini`). This covers:
  - the prompt template's 32 lines;
  - the `||` fallbacks ("N/A", "Standard", "None");
  - rule 7, which interpolates the rhyme detail with no fallback, so an
    absent one reads `undefined`;
  - normalisation of the reply (trimmed text, or the sentinel
    "Failed to generate lyrics.");
  - collapsing every call failure into one error.

  The model call is a function parameter from the prompt text to the reply.
- **Application state** (`AppState`). The component's state variables and
  the handlers that change them: topic select, typed topic, file pick, the
  producer, vocalist and rhyme-scheme drop-downs, the custom-style field, the
  lyrics editor, the rules toggle, reset, and generate. The copy buttons'
  flags (App.tsx:175-179) are left out. The confirmation dialog's answer and the
  model's reply are inputs. A well-formedness invariant is proved to hold
  across any run of events, assuming the drop-downs offer only names the
  tables describe (`AppState.Offered`).

Three behaviours of the code that are easy to misread:

- A fragment with more than one colon keeps only the text between the first
  and the second colon. So `"[Mood: 3:00 AM vibes]"` cleans to `"3"`, not to
  `"3:00 AM vibes"` (`Tags.ColonInValueExample`).
- Text without brackets or colons is trimmed, not passed through unchanged
  (`Tags.PlainTextIsTrimmed`). Text with a colon but no brackets keeps only
  what follows the first colon, up to a second one.
- The style composer has no emptiness filter for table sections. A selected
  entry whose description cleans to `""` still contributes an empty section,
  so a stray separator appears next to any section before or after it
  (`Style.EmptySectionKept`); alone, it gives an empty line
  (`Style.LoneEmptySection`).

## Model

| member | source | states |
|---|---|---|
| JsString.Trim | App.tsx:82 | `trim` removes leading and trailing white space: the result is trimmed on both sides, no longer than the input, and empty exactly when the input is blank |
| JsString.TrimExact | App.tsx:82 | trimming blank margins around an already trimmed core gives back exactly that core |
| JsString.TrimOfTrimmed | App.tsx:82 | a string already trimmed on both sides is its own trim |
| JsString.TrimIdempotent | App.tsx:82 | trimming twice equals trimming once |
| JsString.TrimKeeps | App.tsx:82 | trimming never introduces a character that was not in the input |
| JsString.TrimDecompose | App.tsx:82 | every string is a blank prefix, its trimmed form, and a blank suffix |
| JsString.Split | App.tsx:81 | `split(c)` yields at least one piece, no piece holds `c`, the first piece is the text before the first `c`, and there is one piece exactly when `c` does not occur |
| JsString.SplitSecond | App.tsx:82 | `parts[1]` is the text between the first and the second occurrence of the separator, or up to the end |
| JsString.JoinSplit | App.tsx:78-84 | joining the pieces of a split with the separator rebuilds the input |
| JsString.SplitJoin | App.tsx:78-84 | splitting a join of separator-free pieces gives back the pieces |
| JsString.Join | App.tsx:84 | joining no items gives `""` and joining one item gives that item with no separator; `JoinCons`, `JoinPair` and `JoinSplit` cover longer lists |
| JsString.JoinExcludes | App.tsx:84 | a join holds a character only if an item or the separator does |
| JsString.JoinPair | App.tsx:84 | two items are joined with one separator between them |
| JsString.JoinEmptyFirst | App.tsx:84 | an empty first item still leaves its separator in front of the second |
| JsString.RemoveFirst | App.tsx:82 | `replace('[', '')` deletes only the first `[`: one character shorter when present, unchanged when absent |
| JsString.AroundFirst | App.tsx:81-82 | in `a`, then `c`, then `b`, with no `c` in `a`, the text before the first `c` is `a` and the text after it is `b` |
| JsString.IndexOf | App.tsx:81 | the position found holds the character and no earlier position does |
| Constants.Lookup | App.tsx:158 | a table lookup is defined exactly for the keys the table holds, and gives that key's text |
| Constants.Or | App.tsx:97 | `a \|\| b` keeps a non-empty string and falls through to `b` on `undefined` or `""` |
| Constants.VocalistDetail | App.tsx:97 | a rapper's non-empty description wins, otherwise the singer table decides; a result exists only for a name one of the tables holds |
| Tags.CleanFragment | App.tsx:80-83 | a cleaned fragment holds no colon, and no `]` or `[` unless the fragment did |
| Tags.CleanFragmentColon | App.tsx:81-82 | a fragment with a colon yields the trimmed text between its first and second colon |
| Tags.CleanFragmentPlain | App.tsx:82 | a fragment without a colon loses its first `[` and is trimmed |
| Tags.NonBlank | App.tsx:79 | the filter keeps no blank fragment and returns no more fragments than it was given |
| Tags.NonBlankMembers | App.tsx:79 | a fragment is kept exactly when it is one of the input fragments and is not blank |
| Tags.NonBlankSingle | App.tsx:79 | a single fragment is dropped exactly when it is blank and otherwise kept as it is; with `NonBlankAppend` this fixes the filter on every input |
| Tags.NonBlankAppend | App.tsx:79 | the filter keeps input order: it distributes over concatenation |
| Tags.CleanAll | App.tsx:80-83 | the map step gives one item per fragment; no item holds a colon, and no item holds a `]` when no fragment did |
| Tags.CleanAllAt | App.tsx:80-83 | the item at each position is the cleaned fragment at that position |
| Tags.CleanAllAppend | App.tsx:80-83 | the map step distributes over concatenation |
| Tags.Items | App.tsx:77-83 | no contract of its own: `ItemsOfFragment` gives the items of one fragment, `ItemsCons` adds fragments one at a time in input order, and `ItemsExclude` bounds what an item can hold |
| Tags.ItemsExclude | App.tsx:77-83 | no item holds a colon or a `]` |
| Tags.ItemsOfFragment | App.tsx:77-83 | text without `]` gives no item when blank and its one cleaned fragment otherwise |
| Tags.CleanPromptTags | App.tsx:74-85 | the cleaned text never holds `]` or `:`, and blank input cleans to `""` |
| Tags.ItemsCons | App.tsx:77-84 | items come fragment by fragment in input order: the text before the first `]` contributes ahead of the rest |
| Tags.TwoFragmentItems | App.tsx:77-83 | two non-blank `]`-closed fragments give exactly their two cleaned items, in order |
| Tags.TwoFragments | App.tsx:77-84 | two non-blank `]`-closed fragments give their two cleaned items joined by `", "` |
| Tags.OneFragment | App.tsx:77-84 | one non-blank `]`-closed fragment gives its cleaned item alone |
| Tags.LabelledFragment | App.tsx:81-82 | `label:value` keeps only the trimmed value; anything after a second colon is dropped |
| Tags.LabelOnly | App.tsx:81-82 | `label:value` with no further colon cleans to the trimmed value |
| Tags.LabelWithRest | App.tsx:81-82 | `label:value:rest` cleans to the trimmed value, whatever follows the second colon |
| Tags.PlainTextIsTrimmed | App.tsx:77-84 | text without brackets or colons comes back trimmed |
| Tags.CleanIdempotentWithoutBrackets | App.tsx:74-85 | on text without brackets, cleaning twice equals cleaning once |
| Tags.DocumentedExample | App.tsx:75-76 | `"[Production: Lo-Fi, Beats] [Mood: Chill]"` cleans to `"Lo-Fi, Beats, Chill"` |
| Tags.ColonInValueExample | App.tsx:81-82 | `"[Mood: 3:00 AM vibes]"` cleans to `"3"` |
| Style.AppendOrdered | App.tsx:91-110 | appending a section ranked above every present one keeps the sections in strictly increasing rank |
| Style.AppendPresent | App.tsx:91-110 | after an append a kind is present exactly when it was present before or is the appended section's kind |
| Style.PushOrdered | App.tsx:91-110 | pushing a kind ranked above everything present keeps the sections in order |
| Style.PushPresent | App.tsx:91-110 | after a push a kind is present exactly when it was before, or it is the pushed kind and selected |
| Style.PushFaithful | App.tsx:91-110 | every pushed section is of a selected kind and carries that kind's text |
| Style.AppendFaithful | App.tsx:91-110 | appending a faithful section to faithful sections keeps them faithful |
| Style.SectionsSpec | App.tsx:87-113 | the sections hold each selected kind and no other, in the order producer, vocalist, custom, rhyme scheme, each with its text |
| Style.StylePrompt | App.tsx:87-113 | no contract of its own: the line is the join of the sections' texts, and `SectionsSpec` states which sections there are, in what order and with what text |
| Style.NothingSelected | App.tsx:87-113 | with nothing selected and blank custom text the style line is `""` |
| Style.OnlyCustom | App.tsx:102-104 | with only custom text the style line is that text trimmed, with no separator |
| Style.VinylExample | App.tsx:102-104 | custom text `"Vinyl, 808s"` alone gives the style line `"Vinyl, 808s"` |
| Style.EmptySectionKept | App.tsx:91-99 | a selected producer whose description is blank still contributes an empty section, so with a vocalist section after it the line starts with `", "` |
| Style.LoneEmptySection | App.tsx:91-112 | a selected producer whose blank description is the only section gives the empty line |
| Style.StyleExcludesBracket | App.tsx:87-113 | the style line holds a `]` only if the custom text does |
| Gemini.Fallback | geminiService.ts:14 | `${v \|\| fallback}` shows a non-empty value and the fallback for `undefined` or `""` |
| Gemini.FallbackAmbiguous | geminiService.ts:17 | a value equal to the fallback, or empty, renders the same as an absent one |
| Gemini.Interpolate | geminiService.ts:30 | `${v}` shows the value, or the text `undefined` when absent |
| Gemini.Render | geminiService.ts:13-30 | topic, vocalist and vocalist detail are embedded verbatim and the vocalist again in rule 6; the optional fields show their value or "N/A", "Standard" or "None"; rule 7 shows the rhyme detail with no fallback |
| Gemini.RenderAbsent | geminiService.ts:13-30 | with every optional field absent the context reads "N/A" except "Standard" for the rhyme scheme and "None" for the style, and rule 7 reads `undefined` |
| Gemini.RuleSevenAgrees | geminiService.ts:20-30 | rule 7 repeats the context line's rhyme detail exactly when a non-empty detail is given |
| Gemini.PromptLines | geminiService.ts:8-39 | no contract of its own: `LinesLayout` fixes the 32 lines and where the values go, and `PromptReadBack` reads every value back from its line |
| Gemini.Prompt | geminiService.ts:8-39 | no contract of its own: the prompt text is the lines joined with line breaks; `LineBreakCollision` shows what that join loses |
| Gemini.LinesLayout | geminiService.ts:8-39 | the prompt has 32 lines; counting from 0, with the template's empty first line as line 0, the nine context lines are lines 5 to 13 and rules 6 and 7 are lines 21 and 22 |
| Gemini.PromptReadBack | geminiService.ts:8-39 | every placeholder value can be read back from its own line of the filled template's list of lines; this holds for the lines, not for the joined text |
| Gemini.LineBreakCollision | geminiService.ts:8-39 | on the joined prompt text the filling does lose information: a topic holding a line break followed by the description label, and a shorter topic whose description holds that break, are different contexts with the same prompt text |
| JsString.JoinShiftSeparator | geminiService.ts:8-39 | a separator inside an item cannot be told from the separator between items: moving the text after it into the next item leaves the join unchanged |
| Gemini.Normalise | geminiService.ts:51 | the reply becomes its trimmed text when that is not blank, and the sentinel otherwise; the result is never empty and always trimmed |
| Gemini.NormaliseIdempotent | geminiService.ts:51 | normalising a normalised reply changes nothing |
| Gemini.NoLyricsAmbiguous | geminiService.ts:51 | a reply that is literally the sentinel cannot be told from a missing one |
| Gemini.Respond | geminiService.ts:51-54 | the call fails exactly when the model call fails, always with the one connection error; otherwise it gives the normalised reply, which is non-empty and trimmed |
| Gemini.GenerateLyrics | geminiService.ts:5-56 | the call fails exactly when the model call on the filled prompt fails, and then with the one connection error; a success is non-empty and trimmed |
| AppState.SelectTopic | App.tsx:115-121 | a preset topic sets both the topic and the selection; the empty choice clears only the selection; nothing else changes |
| AppState.EditTopic | App.tsx:282-284 | typing replaces the topic and clears the preset selection; nothing else changes |
| AppState.PickFile | App.tsx:123-130 | a chosen file sets the topic to `"Analysis of: "` and its name, records the file and clears the selection; no file changes nothing |
| AppState.Reset | App.tsx:132-146 | a confirmed reset returns every input, the lyrics and the copy flags to their initial values and keeps the rules panel and generating flag; an unconfirmed one changes nothing |
| AppState.Generate | App.tsx:148-173 | without a topic or vocalist only the missing-input alert is raised and the state is unchanged; otherwise a reply becomes the normalised lyrics with no alert, a failure raises the failure alert and keeps the old lyrics, the generating flag ends off, and nothing else changes |
| AppState.GenerateCallsModel | App.tsx:148-173 | the reply generation handles is the model's answer to the prompt filled from the state's request: the lyrics become what `generateSunoLyrics` returns, and the failure alert is raised exactly when it throws |
| AppState.InitialWellformed | App.tsx:23-38 | the initial state is well formed |
| AppState.ApplyPreserves | App.tsx:115-447 | each event that `Offered` admits (a drop-down choice of the empty value or a name the tables describe) keeps the state well formed, whether it is a handler at lines 115-173 or an inline setter: the rules toggle at 204, the topic text area at 282-284, the drop-downs at 322, 337 and 360, the custom style at 384 and the lyrics editor at 447 |
| AppState.Apply | App.tsx:115-447 | no contract of its own: `ApplyPreserves` states that every offered event keeps the state well formed, and each handler's own contract states what it changes |
| AppState.Run | App.tsx:115-447 | no contract of its own: `RunPreserves` states that any run of offered events keeps the state well formed |
| AppState.RunPreserves | App.tsx:115-447 | any run of such events from a well-formed state ends well formed |
| AppState.ResetClearsStyle | App.tsx:132-146 | after a confirmed reset the style line is `""` and generating is refused with the missing-input alert |
| AppState.Request | App.tsx:156-166 | no contract of its own: `RequestRender` states what the prompt built from it shows, and `FileTopicDescription` what a file pick leaves for the topic description |
| AppState.RequestRender | App.tsx:156-166 | the prompt shows the selected vocalist's table description and the selections' fallbacks; the custom style goes in untrimmed |
| AppState.FileTopicDescription | App.tsx:123-130 | after a file pick the topic description falls back to "N/A" unless the preset table holds that exact topic |

## Left out

- The page layout, icons, styling and the static drop-down option lists
  (App.tsx:41-72, 181-511) are presentation and data. The drop-downs are
  modelled only by `AppState.Offered`, which assumes that they offer the
  empty choice or a name the tables describe. The code does not guarantee
  this. The rhyme-scheme drop-down lists a fixed set of names (App.tsx:62-72,
  364-368) that is never checked against the rhyme-scheme table. The
  vocalist drop-down offers any rapper key (App.tsx:342), even one whose
  description is `""` and that has no singer entry, should the tables hold
  such a name; `Constants.VocalistDetail` gives no detail for such a name.
- The contents of the `constants` tables are not part of this model. Every
  table is an arbitrary map.
- Clipboard writes and the two-second timers that reset the copy flags
  (App.tsx:175-179) are browser I/O. The copy flags appear only where reset
  clears them.
- `window.confirm` is a boolean input and `alert` is an output text. Neither
  dialog is modelled as I/O.
- The model client, the API key, the model name, the sampling settings
  (geminiService.ts:6, 42-49) and the `console.error` log are foreign calls.
  The call is a function parameter from the prompt to the reply.
- Asynchrony is not modelled. Events that arrive while a generation is
  pending are not interleaved. `isGenerating` is modelled only by its value
  before and after a generation.
- Uploaded file contents are not modelled. Only the file's name is read.
- Object prototype keys in table lookups are not modelled. A lookup sees only
  the map's own keys.
- Strings are sequences of Dafny characters. UTF-16 surrogate pairs are not
  modelled separately.
- Style.Resolvable: the composer requires a selected producer or rhyme
  scheme to be in its table, and a selected vocalist to be a rapper with a
  non-empty description or a singer. Otherwise the source calls
  `cleanPromptTags(undefined)`, which throws a `TypeError`, and that error is
  not modelled.
- Gemini.PromptReadBack: the round trip holds on the prompt's list of lines
  only. On the prompt text that is sent, the lines are joined with bare line
  breaks, and the topic comes from a free text area that can hold one. Then
  the text has more than 32 lines and the values cannot be read back:
  `Gemini.LineBreakCollision` proves that two different contexts fill to the
  same text. A text-level round trip for values without line breaks is not
  proved either. It would need a character-by-character check of the long
  fixed instruction lines, which is beyond the solver's reach.
- AppState.Request: the vocalist detail is declared a string, but
  `RAPPERS[name] || SINGERS[name]` can be `undefined`. The model stores the
  text the prompt then shows, `undefined`, in its place.

=== FILE: app_state.dfy ===
/** The form's state and the handlers that change it: topic selection and
    editing, file pick, the persona and style selections, reset and
    generation. Every handler is a pure function from the state before to
    the state after; the confirmation dialog's answer and the model's reply
    are inputs. */
module AppState {
  import opened Wrappers
  import opened JsString
  import opened Constants
  import opened Types
  import opened Style
  import opened Gemini

  /** The component's state variables. A file is represented by its name,
      the only part of it the handlers read. */
  datatype State = State(
    topic: string,
    selectedTopic: string,
    uploadedFile: Option<string>,
    selectedVocalist: string,
    selectedProducer: string,
    selectedRhymeScheme: string,
    customStyle: string,
    lyrics: string,
    copiedAll: bool,
    copiedStyle: bool,
    copiedLyrics: bool,
    showRules: bool,
    isGenerating: bool)

  /** Every field starts empty, absent or false. */
  const Initial: State := State("", "", None, "", "", "", "", "", false, false, false, false, false)

  const FilePrefix: string := "Analysis of: "
  const MissingInput: string := "Please define a topic and select a vocalist persona."
  const GenerationFailed: string := "Generation failed. Check console or API key settings."

  /** `handleTopicSelect`: a preset topic replaces the topic text; choosing
      the empty option only clears the selection. */
  function SelectTopic(s: State, value: string): (r: State)
    ensures r.selectedTopic == value
    ensures r.topic == (if value != "" then value else s.topic)
    ensures r == s.(topic := r.topic, selectedTopic := r.selectedTopic)
  {
    var s' := s.(selectedTopic := value);
    if value != "" then s'.(topic := value) else s'
  }

  /** The topic text area: typing replaces the topic and clears the preset
      selection. */
  function EditTopic(s: State, text: string): (r: State)
    ensures r.topic == text && r.selectedTopic == ""
    ensures r == s.(topic := r.topic, selectedTopic := r.selectedTopic)
  {
    s.(topic := text, selectedTopic := "")
  }

  /** `handleFileUpload`: with a file chosen, the topic becomes a request to
      analyse it by name; with none, nothing changes. */
  function PickFile(s: State, file: Option<string>): (r: State)
    ensures file.None? ==> r == s
    ensures file.Some? ==> r.topic == FilePrefix + file.value && r.selectedTopic == "" && r.uploadedFile == file
    ensures r == s.(topic := r.topic, selectedTopic := r.selectedTopic, uploadedFile := r.uploadedFile)
  {
    match file
    case None => s
    case Some(name) => s.(uploadedFile := file, topic := FilePrefix + name, selectedTopic := "")
  }

  /** `handleReset`: when confirmed, every input, the lyrics and the copy
      flags are cleared; the rules panel and the generating flag are kept.
      When not confirmed, nothing changes. */
  function Reset(s: State, confirmed: bool): (r: State)
    ensures !confirmed ==> r == s
    ensures confirmed ==> r == Initial.(showRules := s.showRules, isGenerating := s.isGenerating)
  {
    if !confirmed then s
    else
      s.(topic := "", selectedTopic := "", uploadedFile := None,
         selectedVocalist := "", selectedProducer := "", selectedRhymeScheme := "",
         customStyle := "", lyrics := "",
         copiedAll := false, copiedStyle := false, copiedLyrics := false)
  }

  /** The selections the style line is composed from. */
  function SelectionOf(s: State): Selection {
    Selection(s.selectedProducer, s.selectedVocalist, s.selectedRhymeScheme, s.customStyle)
  }

  /** The parameters `handleGenerate` hands to the generation client. Each
      detail is a table lookup that is `undefined` for a key the table does
      not hold; the vocalist detail, declared a string, is rendered as the
      text `undefined` in that case, which is what the prompt shows. */
  function Request(t: Tables, s: State): GenerationParams {
    GenerationParams(
      s.topic,
      Lookup(t.topics, s.topic),
      s.selectedVocalist,
      Interpolate(VocalistDetail(t, s.selectedVocalist)),
      Some(s.selectedProducer),
      Lookup(t.producers, s.selectedProducer),
      Some(s.customStyle),
      Some(s.selectedRhymeScheme),
      Lookup(t.rhymeSchemes, s.selectedRhymeScheme))
  }

  /** The state after a handler and the alert it raised, if any. */
  datatype Outcome = Outcome(state: State, alert: Option<string>)

  /** `handleGenerate`: without a topic or a vocalist only the alert is
      raised. Otherwise the model is asked, and `reply` is its answer to the
      prompt filled from the state's request (see `GenerateCallsModel`): a
      reply becomes the lyrics, a failure raises the alert and keeps the old
      lyrics, and either way the generating flag is off afterwards. */
  function Generate(s: State, reply: ApiReply): (r: Outcome)
    ensures s.topic == "" || s.selectedVocalist == "" ==> r == Outcome(s, Some(MissingInput))
    ensures s.topic != "" && s.selectedVocalist != "" ==>
              && !r.state.isGenerating
              && r.state == s.(lyrics := r.state.lyrics, isGenerating := false)
              && (reply.Failed? <==> r.alert == Some(GenerationFailed))
              && (reply.Failed? ==> r.state.lyrics == s.lyrics)
              && (reply.Reply? ==> r.alert.None? && r.state.lyrics == Normalise(reply.text))
    ensures r.state.lyrics == s.lyrics || (r.state.lyrics != "" && Trimmed(r.state.lyrics))
  {
    if s.topic == "" || s.selectedVocalist == "" then Outcome(s, Some(MissingInput))
    else
      match Respond(reply)
      case Success(text) => Outcome(s.(lyrics := text, isGenerating := false), None)
      case Failure(_) => Outcome(s.(isGenerating := false), Some(GenerationFailed))
  }

  /** The reply `Generate` handles is the model's answer to the prompt built
      from the state: generating with a model `api` sets the lyrics to what
      `generateSunoLyrics` returns for the state's request, and raises the
      failure alert exactly when it throws. */
  lemma GenerateCallsModel(t: Tables, s: State, api: string -> ApiReply)
    requires s.topic != "" && s.selectedVocalist != ""
    ensures var r := Generate(s, api(Prompt(Request(t, s))));
            match GenerateLyrics(Request(t, s), api)
            case Success(text) => r.state.lyrics == text && r.alert.None?
            case Failure(_) => r.state.lyrics == s.lyrics && r.alert == Some(GenerationFailed)
  {
  }

  /** What the user can do. A generation request carries the model's reply
      to the prompt it is sent. */
  datatype Event =
    | TopicSelected(value: string)
    | TopicEdited(text: string)
    | FilePicked(file: Option<string>)
    | ProducerChosen(producer: string)
    | VocalistChosen(vocalist: string)
    | RhymeSchemeChosen(rhymeScheme: string)
    | CustomStyleEdited(style: string)
    | LyricsEdited(lyrics: string)
    | RulesToggled
    | ResetClicked(confirmed: bool)
    | GenerateClicked(reply: ApiReply)

  /** The state after one event. */
  function Apply(t: Tables, s: State, e: Event): State {
    match e
    case TopicSelected(value) => SelectTopic(s, value)
    case TopicEdited(text) => EditTopic(s, text)
    case FilePicked(file) => PickFile(s, file)
    case ProducerChosen(producer) => s.(selectedProducer := producer)
    case VocalistChosen(vocalist) => s.(selectedVocalist := vocalist)
    case RhymeSchemeChosen(rhymeScheme) => s.(selectedRhymeScheme := rhymeScheme)
    case CustomStyleEdited(style) => s.(customStyle := style)
    case LyricsEdited(lyrics) => s.(lyrics := lyrics)
    case RulesToggled => s.(showRules := !s.showRules)
    case ResetClicked(confirmed) => Reset(s, confirmed)
    case GenerateClicked(reply) => Generate(s, reply).state
  }

  /** The state after a sequence of events, in order. */
  function Run(t: Tables, s: State, events: seq<Event>): State
    decreases |events|
  {
    if |events| == 0 then s else Run(t, Apply(t, s, events[0]), events[1..])
  }

  /** The assumption that a drop-down offers only the empty choice or a
      name the tables can describe. The page does not check it: the rhyme
      schemes offered are a fixed list, and a rapper whose description is
      empty and who is no singer has no detail. */
  predicate Offered(t: Tables, e: Event) {
    match e
    case ProducerChosen(producer) => producer == "" || producer in t.producers
    case VocalistChosen(vocalist) => vocalist == "" || VocalistDetail(t, vocalist).Some?
    case RhymeSchemeChosen(rhymeScheme) => rhymeScheme == "" || rhymeScheme in t.rhymeSchemes
    case _ => true
  }

  /** What holds between events: the selections can be looked up, a preset
      topic selection always matches the topic text, and no generation is
      in progress. */
  predicate Wellformed(t: Tables, s: State) {
    && Resolvable(t, SelectionOf(s))
    && (s.selectedTopic == "" || s.selectedTopic == s.topic)
    && !s.isGenerating
  }

  lemma InitialWellformed(t: Tables)
    ensures Wellformed(t, Initial)
  {
  }

  /** Each event the assumption admits keeps the state well formed. */
  lemma ApplyPreserves(t: Tables, s: State, e: Event)
    requires Wellformed(t, s) && Offered(t, e)
    ensures Wellformed(t, Apply(t, s, e))
  {
  }

  /** Any run of offered events from a well-formed state ends well formed. */
  lemma {:induction false} RunPreserves(t: Tables, s: State, events: seq<Event>)
    requires Wellformed(t, s)
    requires forall i :: 0 <= i < |events| ==> Offered(t, events[i])
    ensures Wellformed(t, Run(t, s, events))
    decreases |events|
  {
    if |events| > 0 {
      ApplyPreserves(t, s, events[0]);
      RunPreserves(t, Apply(t, s, events[0]), events[1..]);
    }
  }

  /** The style line shown for a state, on every render, generating or
      not. */
  function StyleOf(t: Tables, s: State): string
    requires Resolvable(t, SelectionOf(s))
  {
    StylePrompt(t, SelectionOf(s))
  }

  /** After a confirmed reset the style line is empty and generation is
      refused until a topic and a vocalist are chosen again. */
  lemma ResetClearsStyle(t: Tables, s: State, reply: ApiReply)
    requires Wellformed(t, s)
    ensures Wellformed(t, Reset(s, true))
    ensures StyleOf(t, Reset(s, true)) == ""
    ensures Generate(Reset(s, true), reply) == Outcome(Reset(s, true), Some(MissingInput))
  {
    NothingSelected(t, SelectionOf(Reset(s, true)));
  }

  /** In a well-formed state the prompt carries the selected vocalist's
      table description, never the text `undefined`, and the selections'
      fallbacks: no producer reads "N/A", no rhyme scheme "Standard". The
      custom style goes in untrimmed, so whitespace-only text, which the
      style line drops, still reaches the prompt. */
  lemma RequestRender(t: Tables, s: State)
    requires Wellformed(t, s)
    ensures s.selectedVocalist != "" ==>
              Render(Request(t, s)).vocalistDetail == VocalistDetail(t, s.selectedVocalist).value
    ensures Render(Request(t, s)).producer == (if s.selectedProducer == "" then NotAvailable else s.selectedProducer)
    ensures Render(Request(t, s)).rhymeScheme == (if s.selectedRhymeScheme == "" then StandardScheme else s.selectedRhymeScheme)
    ensures Render(Request(t, s)).additionalStyle == (if s.customStyle == "" then NoStyle else s.customStyle)
    ensures s.selectedRhymeScheme != "" ==>
              Render(Request(t, s)).rhymeExecution == t.rhymeSchemes[s.selectedRhymeScheme]
  {
  }

  /** The description is looked up by the topic text itself, so after a
      file pick, whose topic the preset table does not hold, it falls back
      to "N/A". */
  lemma FileTopicDescription(t: Tables, s: State, name: string)
    requires FilePrefix + name !in t.topics
    ensures Render(Request(t, PickFile(s, Some(name)))).description == NotAvailable
    ensures Render(Request(t, PickFile(s, Some(name)))).topic == FilePrefix + name
  {
  }
}

=== FILE: constants.dfy ===
/** The reference tables of the application's `constants` file and the way
    the application reads them. The table contents are not part of this model:
    every table is an arbitrary map from a display name to its description. */
module Constants {
  import opened Wrappers

  /** A name-to-description table (`TopicMap` / `PersonaMap`). */
  type Table = map<string, string>

  /** TOPICS, RAPPERS, SINGERS, PRODUCERS and RHYME_SCHEMES. */
  datatype Tables = Tables(
    topics: Table,
    rappers: Table,
    singers: Table,
    producers: Table,
    rhymeSchemes: Table)

  /** `table[key]`, which is `undefined` for a key the table does not hold. */
  function Lookup(t: Table, key: string): (r: Option<string>)
    ensures r.Some? <==> key in t
    ensures r.Some? ==> r.value == t[key]
  {
    if key in t then Some(t[key]) else None
  }

  /** JavaScript `a || b` on a `string | undefined`: both `undefined` and the
      empty string are falsy and fall through to `b`. */
  function Or(a: Option<string>, b: Option<string>): (r: Option<string>)
    ensures a.Some? && a.value != "" ==> r == a
    ensures a.None? || a.value == "" ==> r == b
  {
    if a.Some? && a.value != "" then a else b
  }

  /** `RAPPERS[name] || SINGERS[name]`: a rapper's non-empty description
      wins, otherwise the singer table is consulted. */
  function VocalistDetail(t: Tables, name: string): (r: Option<string>)
    ensures name in t.rappers && t.rappers[name] != "" ==> r == Some(t.rappers[name])
    ensures (name !in t.rappers || t.rappers[name] == "") ==> r == Lookup(t.singers, name)
    ensures r.Some? ==> name in t.rappers || name in t.singers
  {
    Or(Lookup(t.rappers, name), Lookup(t.singers, name))
  }
}

=== FILE: gemini_service.dfy ===
/** `generateSunoLyrics`: the prompt sent to the language model, filled in
    from the generation parameters, and the handling of the model's reply.
    The model call itself is a parameter: a function from the prompt text to
    the reply. */
module Gemini {
  import opened Wrappers
  import opened JsString
  import opened Constants
  import opened Types

  /** What the model call produces: a response whose `text` may be
      `undefined`, or a thrown error. */
  datatype ApiReply = Reply(text: Option<string>) | Failed

  const NotAvailable: string := "N/A"
  const StandardScheme: string := "Standard"
  const NoStyle: string := "None"
  /** How JavaScript renders `undefined` inside a template literal. */
  const UndefinedText: string := "undefined"
  /** Returned when the model's reply is missing or blank. */
  const NoLyrics: string := "Failed to generate lyrics."
  /** The one error every failed call is turned into. */
  const ConnectError: string := "Failed to connect to AI service. Please try again."

  /** `${v || fallback}`: the value when it is a non-empty string, the
      fallback when it is `undefined` or empty. */
  function Fallback(v: Option<string>, fallback: string): (r: string)
    ensures v.Some? && v.value != "" ==> r == v.value
    ensures v.None? || v.value == "" ==> r == fallback
  {
    Or(v, Some(fallback)).value
  }

  /** `${v}` with no fallback: `undefined` is spelled out. */
  function Interpolate(v: Option<string>): (r: string)
    ensures v.Some? ==> r == v.value
    ensures v.None? ==> r == UndefinedText
  {
    v.ValueOr(UndefinedText)
  }

  /** The text put in place of each of the template's placeholders, in the
      order they occur. */
  datatype Context = Context(
    topic: string,
    description: string,
    vocalist: string,
    vocalistDetail: string,
    producer: string,
    producerDetail: string,
    rhymeScheme: string,
    rhymeDetail: string,
    additionalStyle: string,
    styleAlignment: string,
    rhymeExecution: string)

  /** Fills the placeholders from the parameters. */
  function Render(p: GenerationParams): (r: Context)
    ensures r.topic == p.topic && r.vocalist == p.vocalist && r.vocalistDetail == p.vocalistDetail
    ensures r.styleAlignment == p.vocalist
    ensures r.description == Fallback(p.topicDescription, NotAvailable)
    ensures r.producer == Fallback(p.producer, NotAvailable)
    ensures r.producerDetail == Fallback(p.producerDetail, NotAvailable)
    ensures r.rhymeScheme == Fallback(p.rhymeScheme, StandardScheme)
    ensures r.rhymeDetail == Fallback(p.rhymeSchemeDetail, NotAvailable)
    ensures r.additionalStyle == Fallback(p.customStyle, NoStyle)
    ensures r.rhymeExecution == Interpolate(p.rhymeSchemeDetail)
  {
    Context(
      p.topic,
      Fallback(p.topicDescription, NotAvailable),
      p.vocalist,
      p.vocalistDetail,
      Fallback(p.producer, NotAvailable),
      Fallback(p.producerDetail, NotAvailable),
      Fallback(p.rhymeScheme, StandardScheme),
      Fallback(p.rhymeSchemeDetail, NotAvailable),
      Fallback(p.customStyle, NoStyle),
      p.vocalist,
      Interpolate(p.rhymeSchemeDetail))
  }

  /** The template's opening: an empty first line (the literal starts with
      a line break), the role, the goal and the context heading. */
  const Intro: seq<string> := [
    "",
    "  You are a professional world-class lyricist specialized in Suno AI music generation prompts.",
    "  Your goal is to create lyrics that are not only emotionally resonant but also perfectly formatted for Suno's AI engine.",
    "",
    "  CONTEXT:"]

  /** The labels of the nine context lines. */
  const Labels: seq<string> := [
    "  - Topic: ",
    "  - Description: ",
    "  - Vocalist Persona: ",
    "  - Vocalist Detail: ",
    "  - Producer/Production Style: ",
    "  - Producer Detail: ",
    "  - Rhyme Scheme/Constraint: ",
    "  - Rhyme Detail: ",
    "  - Additional Style: "]

  /** The five fixed syntax rules and their heading. */
  const FixedRules: seq<string> := [
    "",
    "  CRITICAL SYNTAX RULES FOR SUNO AI:",
    "  1. Use bracketed commands for structure: [Intro: Mood], [Verse 1: Technique], [Chorus: Energy], [Bridge: Shift], [Outro: Fade].",
    "  2. RAP SECTIONS: Use hyphens to connect words to force rhythmic flow (e.g., \"The-grind-don't-stop-the-climb-is-the-top\"). Use double-time or triplets if requested.",
    "  3. SINGING SECTIONS: Use ellipses (...) and elongated vowels (e.g., \"Waitiiiing... for the sun-rise...\") to guide the AI's melodic phrasing.",
    "  4. AD-LIBS: Use parentheses for backing vocals or ad-libs like (Yeah), (I see you), (Check).",
    "  5. BREAKS: Use ( . . . ) to indicate instrumental solos or atmospheric pauses."]

  const StyleRule: string := "  6. STYLE ALIGNMENT: The vocabulary and tone must match the specific persona of "
  const RhymeRule: string := "  7. RHYME EXECUTION: Adhere strictly to the requested rhyme scheme: "

  /** The TASK and OUTPUT sections; the literal ends with a line holding
      only the indentation. */
  const Outro: seq<string> := [
    "",
    "  TASK:",
    "  Generate 4-6 sections of professional lyrics. ",
    "  Each section must have a bracketed header defining the style (e.g., [Verse 1: Fast Rap] or [Chorus: Melodic R&B]).",
    "  Ensure the content matches the depth of the provided topic and the specific vocal qualities of the chosen persona.",
    "",
    "  OUTPUT:",
    "  Return ONLY the lyrics. Do not include introductory text or explanations.",
    "  "]

  /** The nine context values, in line order. */
  function Values(c: Context): (r: seq<string>)
    ensures |r| == |Labels|
  {
    [c.topic, c.description, c.vocalist, c.vocalistDetail, c.producer,
     c.producerDetail, c.rhymeScheme, c.rhymeDetail, c.additionalStyle]
  }

  function ContextLines(c: Context): (r: seq<string>)
    ensures |r| == |Labels|
    ensures forall i :: 0 <= i < |r| ==> r[i] == Labels[i] + Values(c)[i]
  {
    seq(|Labels|, i requires 0 <= i < |Labels| => Labels[i] + Values(c)[i])
  }

  function RuleLines(c: Context): seq<string> {
    [StyleRule + c.styleAlignment + ".", RhymeRule + c.rhymeExecution + "."]
  }

  /** The prompt's lines: 5 opening lines, 9 context lines, 7 fixed rule
      lines, rules 6 and 7, and 9 closing lines. */
  function PromptLines(c: Context): seq<string> {
    Intro + ContextLines(c) + FixedRules + RuleLines(c) + Outro
  }

  /** The prompt template filled from the parameters. */
  function Prompt(p: GenerationParams): string {
    Join(PromptLines(Render(p)), "\n")
  }

  /** Whether the prompt line `s` reads `prefix` followed by a value. */
  function After(s: string, prefix: string): Option<string> {
    if prefix <= s then Some(s[|prefix|..]) else None
  }

  /** Whether the prompt line `s` reads `rule` followed by a value and a
      full stop. */
  function Between(s: string, rule: string): Option<string> {
    if rule <= s && |s| > |rule| && s[|s| - 1] == '.' then Some(s[|rule|..|s| - 1]) else None
  }

  /** Recovers the placeholder values from the prompt's lines: the inverse
      of filling in the template. */
  function ReadBack(lines: seq<string>): Option<Context> {
    if |lines| != 32 then None
    else
      var context := lines[5..14];
      var vs := seq(|Labels|, i requires 0 <= i < |Labels| => After(context[i], Labels[i]));
      var style, rhyme := Between(lines[21], StyleRule), Between(lines[22], RhymeRule);
      if (exists i :: 0 <= i < |vs| && vs[i].None?) || style.None? || rhyme.None? then None
      else
        Some(Context(vs[0].value, vs[1].value, vs[2].value, vs[3].value, vs[4].value,
                     vs[5].value, vs[6].value, vs[7].value, vs[8].value, style.value, rhyme.value))
  }

  lemma AfterLabel(prefix: string, v: string)
    ensures After(prefix + v, prefix) == Some(v)
  {
    assert (prefix + v)[..|prefix|] == prefix;
    assert (prefix + v)[|prefix|..] == v;
  }

  lemma BetweenRule(rule: string, v: string)
    ensures Between(rule + v + ".", rule) == Some(v)
  {
    var s := rule + v + ".";
    assert s[..|rule|] == rule;
    assert s[|rule|..|s| - 1] == v;
  }

  /** Where the placeholders sit among the prompt's 32 lines. */
  lemma LinesLayout(c: Context)
    ensures |PromptLines(c)| == 32
    ensures PromptLines(c)[5..14] == ContextLines(c)
    ensures PromptLines(c)[21] == RuleLines(c)[0] && PromptLines(c)[22] == RuleLines(c)[1]
  {
    var lines := PromptLines(c);
    assert lines == Intro + ContextLines(c) + FixedRules + RuleLines(c) + Outro;
    assert |Intro| == 5 && |FixedRules| == 7 && |Outro| == 9;
  }

  /** Every placeholder value can be read back from the filled template's
      lines, so each one appears in full and in its own place: the topic,
      vocalist and vocalist detail verbatim, the optional fields after their
      fallbacks. */
  lemma PromptReadBack(c: Context)
    ensures ReadBack(PromptLines(c)) == Some(c)
  {
    LinesLayout(c);
    var context := PromptLines(c)[5..14];
    forall i | 0 <= i < |Labels| ensures After(context[i], Labels[i]) == Some(Values(c)[i]) {
      AfterLabel(Labels[i], Values(c)[i]);
    }
    BetweenRule(StyleRule, c.styleAlignment);
    BetweenRule(RhymeRule, c.rhymeExecution);
  }

  /** The first two context lines, topic and description, and the rest. */
  lemma ContextLinesSplit(c: Context)
    ensures ContextLines(c) == [Labels[0] + c.topic, Labels[1] + c.description] + ContextLines(c)[2..]
  {
  }

  /** The prompt's lines around the topic and description lines. */
  lemma PromptLinesAround(c: Context) returns (post: seq<string>)
    ensures PromptLines(c) == Intro + [Labels[0] + c.topic, Labels[1] + c.description] + post
    ensures post == ContextLines(c)[2..] + FixedRules + RuleLines(c) + Outro
  {
    ContextLinesSplit(c);
    post := ContextLines(c)[2..] + FixedRules + RuleLines(c) + Outro;
    RegroupSix(Intro, [Labels[0] + c.topic, Labels[1] + c.description], ContextLines(c)[2..], FixedRules, RuleLines(c), Outro);
  }

  /** Contexts that differ only in topic and description share every other
      line. */
  lemma SameOtherLines(c1: Context, c2: Context)
    requires c1.(topic := c2.topic, description := c2.description) == c2
    ensures ContextLines(c1)[2..] == ContextLines(c2)[2..]
    ensures RuleLines(c1) == RuleLines(c2)
  {
  }

  /** The lines are joined with bare line breaks, so the prompt text does
      not determine the values once one of them holds a line break: a topic
      that runs on into a line reading like the description line fills to
      the same text as a shorter topic whose description holds that break. */
  lemma LineBreakCollision(c: Context, a: string, b: string, d: string)
    ensures c.(topic := a + "\n" + Labels[1] + b, description := d) != c.(topic := a, description := b + "\n" + Labels[1] + d)
    ensures Join(PromptLines(c.(topic := a + "\n" + Labels[1] + b, description := d)), "\n")
         == Join(PromptLines(c.(topic := a, description := b + "\n" + Labels[1] + d)), "\n")
  {
    var c1 := c.(topic := a + "\n" + Labels[1] + b, description := d);
    var c2 := c.(topic := a, description := b + "\n" + Labels[1] + d);
    assert |c1.topic| > |c2.topic|;
    var post1 := PromptLinesAround(c1);
    var post2 := PromptLinesAround(c2);
    SameOtherLines(c1, c2);
    RegroupFive(Labels[0], a, "\n", Labels[1], b);
    RegroupFive(Labels[1], b, "\n", Labels[1], d);
    JoinShiftSeparator(Intro, Labels[0] + a, Labels[1] + b, Labels[1] + d, post1, "\n");
  }

  /** With every optional field absent the context reads "N/A", except the
      rhyme scheme ("Standard") and the additional style ("None"), and
      rule 7 spells out `undefined`. */
  lemma RenderAbsent(topic: string, vocalist: string, detail: string)
    ensures Render(GenerationParams(topic, None, vocalist, detail, None, None, None, None, None))
         == Context(topic, "N/A", vocalist, detail, "N/A", "N/A", "Standard", "N/A", "None", vocalist, "undefined")
  {
  }

  /** Rule 7 repeats the context line's rhyme detail exactly when a
      non-empty detail is given; otherwise the context line says "N/A"
      while the rule says "undefined" or nothing. */
  lemma RuleSevenAgrees(p: GenerationParams)
    ensures Render(p).rhymeExecution == Render(p).rhymeDetail
        <==> p.rhymeSchemeDetail.Some? && p.rhymeSchemeDetail.value != ""
  {
  }

  /** A fallback cannot be told apart from a value equal to it: a producer
      literally named "N/A" renders like no producer at all. */
  lemma FallbackAmbiguous(fallback: string)
    requires fallback != ""
    ensures Fallback(Some(fallback), fallback) == Fallback(None, fallback)
    ensures Fallback(Some(""), fallback) == Fallback(None, fallback)
  {
  }

  /** The sentinel is not empty and has no white space at either end. */
  lemma NoLyricsShape()
    ensures NoLyrics != "" && Trimmed(NoLyrics)
  {
    assert NoLyrics[0] == 'F';
    assert NoLyrics[|NoLyrics| - 1] == '.';
  }

  /** `response.text?.trim() || "Failed to generate lyrics."`. */
  function Normalise(text: Option<string>): (r: string)
    ensures r != "" && Trimmed(r)
    ensures text.Some? && !Blank(text.value) ==> r == Trim(text.value)
    ensures text.None? || Blank(text.value) ==> r == NoLyrics
  {
    NoLyricsShape();
    var trimmed := if text.Some? then Some(Trim(text.value)) else None;
    Or(trimmed, Some(NoLyrics)).value
  }

  lemma NoLyricsTrimmed()
    ensures Trim(NoLyrics) == NoLyrics
  {
    TrimExact([], NoLyrics, []);
    assert [] + NoLyrics + [] == NoLyrics;
  }

  /** Normalising a normalised reply changes nothing. */
  lemma NormaliseIdempotent(text: Option<string>)
    ensures Normalise(Some(Normalise(text))) == Normalise(text)
  {
    var r := Normalise(text);
    if text.Some? && !Blank(text.value) {
      TrimIdempotent(text.value);
    } else {
      NoLyricsTrimmed();
    }
  }

  /** A reply that is literally the sentinel cannot be told apart from a
      missing one. */
  lemma NoLyricsAmbiguous()
    ensures Normalise(Some(NoLyrics)) == Normalise(None)
  {
    NoLyricsTrimmed();
  }

  /** What `generateSunoLyrics` makes of the model's reply: the text is
      normalised, and every failure becomes the one connection error. */
  function Respond(reply: ApiReply): (r: Result<string, string>)
    ensures r.Failure? <==> reply.Failed?
    ensures r.Failure? ==> r.error == ConnectError
    ensures r.Success? ==> r.value == Normalise(reply.text)
    ensures r.Success? ==> r.value != "" && Trimmed(r.value)
  {
    match reply
    case Failed => Failure(ConnectError)
    case Reply(text) => Success(Normalise(text))
  }

  /** `generateSunoLyrics`: the model receives the filled template and its
      reply is handled as above. */
  function GenerateLyrics(p: GenerationParams, api: string -> ApiReply): (r: Result<string, string>)
    ensures r.Failure? <==> api(Prompt(p)).Failed?
    ensures r.Failure? ==> r.error == ConnectError
    ensures r.Success? ==> r.value != "" && Trimmed(r.value)
  {
    Respond(api(Prompt(p)))
  }
}

=== FILE: js_string.dfy ===
/** The JavaScript string primitives the application relies on, on `seq<char>`:
    `String.prototype.trim`, `split` with a one-character separator,
    `replace` of the first occurrence of a character, and `Array.prototype.join`. */
module JsString {

  /** The ECMAScript WhiteSpace and LineTerminator code points, which are
      exactly what `trim` removes from both ends. */
  predicate IsWhitespace(c: char) {
    || c == '\t' || c == '\n' || c == '\U{000B}' || c == '\U{000C}' || c == '\r'
    || c == ' ' || c == '\U{00A0}' || c == '\U{1680}'
    || ('\U{2000}' <= c <= '\U{200A}')
    || c == '\U{2028}' || c == '\U{2029}' || c == '\U{202F}' || c == '\U{205F}'
    || c == '\U{3000}' || c == '\U{FEFF}'
  }

  /** Only whitespace (or nothing): the strings whose `trim()` is falsy. */
  predicate Blank(s: string) {
    forall k :: 0 <= k < |s| ==> IsWhitespace(s[k])
  }

  /** Trimmed on both sides: empty, or starting and ending with a non-whitespace character. */
  predicate Trimmed(s: string) {
    s == [] || (!IsWhitespace(s[0]) && !IsWhitespace(s[|s| - 1]))
  }

  lemma BlankSplit(a: string, b: string)
    ensures Blank(a + b) <==> Blank(a) && Blank(b)
  {
    if Blank(a + b) {
      forall k | 0 <= k < |a| ensures IsWhitespace(a[k]) {
        assert a[k] == (a + b)[k];
      }
      forall k | 0 <= k < |b| ensures IsWhitespace(b[k]) {
        assert b[k] == (a + b)[|a| + k];
      }
    }
  }

  /** The longest whitespace-free-at-the-front suffix of `s`. */
  function TrimStart(s: string): (r: string)
    ensures |r| <= |s| && r == s[|s| - |r|..]
    ensures Blank(s[..|s| - |r|])
    ensures r == [] || !IsWhitespace(r[0])
  {
    if |s| == 0 || !IsWhitespace(s[0]) then s
    else
      var r := TrimStart(s[1..]);
      assert s[..|s| - |r|] == [s[0]] + s[1..][..|s| - 1 - |r|];
      BlankSplit([s[0]], s[1..][..|s| - 1 - |r|]);
      r
  }

  /** The longest whitespace-free-at-the-back prefix of `s`. */
  function TrimEnd(s: string): (r: string)
    ensures |r| <= |s| && r == s[..|r|]
    ensures Blank(s[|r|..])
    ensures r == [] || !IsWhitespace(r[|r| - 1])
  {
    if |s| == 0 || !IsWhitespace(s[|s| - 1]) then s
    else
      var r := TrimEnd(s[..|s| - 1]);
      assert s[|r|..] == s[..|s| - 1][|r|..] + [s[|s| - 1]];
      BlankSplit(s[..|s| - 1][|r|..], [s[|s| - 1]]);
      r
  }

  /** `s.trim()`: strips whitespace from both ends. */
  function Trim(s: string): (r: string)
    ensures |r| <= |s|
    ensures Trimmed(r)
    ensures r == [] <==> Blank(s)
  {
    var t := TrimStart(s);
    var r := TrimEnd(t);
    if r == [] then
      assert t == t[|r|..];
      assert s == s[..|s| - |t|] + t;
      BlankSplit(s[..|s| - |t|], t);
      r
    else
      assert r[0] == t[0];
      assert s[|s| - |t|] == t[0];
      r
  }

  /** A blank prefix makes no difference to TrimStart. */
  lemma {:induction false} TrimStartBlankPrefix(pre: string, x: string)
    requires Blank(pre)
    ensures TrimStart(pre + x) == TrimStart(x)
  {
    if pre != [] {
      assert (pre + x)[0] == pre[0];
      assert (pre + x)[1..] == pre[1..] + x;
      TrimStartBlankPrefix(pre[1..], x);
    } else {
      assert pre + x == x;
    }
  }

  /** A blank suffix makes no difference to TrimEnd. */
  lemma {:induction false} TrimEndBlankSuffix(x: string, post: string)
    requires Blank(post)
    ensures TrimEnd(x + post) == TrimEnd(x)
    decreases |post|
  {
    if post != [] {
      var n := |x + post|;
      assert (x + post)[n - 1] == post[|post| - 1];
      assert (x + post)[..n - 1] == x + post[..|post| - 1];
      TrimEndBlankSuffix(x, post[..|post| - 1]);
    } else {
      assert x + post == x;
    }
  }

  /** Trim only removes characters. */
  lemma TrimKeeps(s: string, c: char)
    ensures c !in s ==> c !in Trim(s)
  {
    var pre, post := TrimDecompose(s);
    assert s == pre + Trim(s) + post;
  }

  /** Trim removes exactly the blank margins: any string laid out as blank
      prefix, trimmed core and blank suffix trims to its core. */
  lemma TrimExact(pre: string, core: string, post: string)
    requires Blank(pre) && Blank(post) && Trimmed(core)
    ensures Trim(pre + core + post) == core
  {
    assert pre + core + post == pre + (core + post);
    TrimStartBlankPrefix(pre, core + post);
    if core == [] {
      assert core + post == [] + post;
      TrimStartBlankPrefix(post, []);
      assert post + [] == post;
      assert TrimStart(pre + core + post) == [];
    } else {
      assert (core + post)[0] == core[0];
      assert TrimStart(pre + core + post) == core + post;
      TrimEndBlankSuffix(core, post);
      assert TrimEnd(core + post) == core;
    }
  }

  /** Every string is its trim with blank margins on either side. */
  lemma TrimDecompose(s: string) returns (pre: string, post: string)
    ensures Blank(pre) && Blank(post)
    ensures s == pre + Trim(s) + post
  {
    var t := TrimStart(s);
    var r := TrimEnd(t);
    pre, post := s[..|s| - |t|], t[|r|..];
    SplitAt(t, |r|);
    SplitAt(s, |s| - |t|);
    Regroup(s, pre, t, r, post);
  }

  /* Sequence identities the proofs of this model lean on, stated once for
     any element type so that the solver meets them without the string
     functions around. */

  lemma SplitAt<T>(s: seq<T>, n: nat)
    requires n <= |s|
    ensures s == s[..n] + s[n..]
  {
  }

  lemma Regroup<T>(s: seq<T>, pre: seq<T>, t: seq<T>, r: seq<T>, post: seq<T>)
    requires t == r + post && s == pre + t
    ensures s == pre + r + post
  {
  }

  lemma RegroupFive<T>(p: seq<T>, a: seq<T>, n: seq<T>, q: seq<T>, b: seq<T>)
    ensures p + (a + n + q + b) == (p + a) + n + (q + b)
  {
  }

  lemma RegroupSix<T>(a: seq<T>, b: seq<T>, t: seq<T>, f: seq<T>, r: seq<T>, o: seq<T>)
    ensures a + (b + t) + f + r + o == a + b + (t + f + r + o)
  {
  }

  lemma PairOfSingles<T>(p: seq<T>, q: seq<T>, e: seq<T>, x: T, y: T)
    requires p == [x] && q == [y] && e == []
    ensures p + (q + e) == [x, y]
  {
  }

  lemma AppendSingles<T>(x: T, y: T)
    ensures [] + [x] == [x]
    ensures [x] + [y] == [x, y]
  {
  }

  /** An item free of `c` ahead of items free of `c`. */
  lemma ConsExcludes(h: string, rest: seq<string>, c: char)
    ensures c !in h && (forall k :: 0 <= k < |rest| ==> c !in rest[k]) ==>
              forall k :: 0 <= k < |[h] + rest| ==> c !in ([h] + rest)[k]
  {
  }

  /** Dropping the first item keeps the rest free of `c`. */
  lemma TailExcludes(items: seq<string>, c: char)
    requires |items| > 0
    ensures (forall k :: 0 <= k < |items| ==> c !in items[k]) ==>
              forall k :: 0 <= k < |items[1..]| ==> c !in items[1..][k]
  {
  }

  /** A trimmed string trims to itself. */
  lemma TrimOfTrimmed(t: string)
    requires Trimmed(t)
    ensures Trim(t) == t
  {
    TrimExact([], t, []);
    assert [] + t + [] == t;
  }

  lemma TrimIdempotent(s: string)
    ensures Trim(Trim(s)) == Trim(s)
  {
    TrimOfTrimmed(Trim(s));
  }

  /** Position of the first occurrence of `c` (JavaScript `indexOf`). */
  function IndexOf(s: string, c: char): (i: nat)
    requires c in s
    ensures i < |s| && s[i] == c
    ensures c !in s[..i]
  {
    if s[0] == c then 0
    else
      assert s == [s[0]] + s[1..];
      var j := IndexOf(s[1..], c);
      assert s[..j + 1] == [s[0]] + s[1..][..j];
      j + 1
  }

  lemma {:induction false} IndexOfConcat(a: string, c: char, b: string)
    requires c !in a
    ensures c in a + [c] + b && IndexOf(a + [c] + b, c) == |a|
  {
    var s := a + [c] + b;
    assert s[|a|] == c;
    if a != [] {
      assert s[0] == a[0];
      assert s[1..] == a[1..] + [c] + b;
      IndexOfConcat(a[1..], c, b);
    }
  }

  /** The text before the first `c`, or all of `s` when there is none. */
  function UpTo(s: string, c: char): (r: string)
    ensures c !in r
    ensures r <= s
  {
    if c in s then s[..IndexOf(s, c)] else s
  }

  /** The text after the first `c`. */
  function AfterFirst(s: string, c: char): (r: string)
    requires c in s
    ensures |r| < |s|
    ensures s == UpTo(s, c) + [c] + r
  {
    var i := IndexOf(s, c);
    assert s == s[..i] + [c] + s[i + 1..];
    s[i + 1..]
  }

  /** The text after the first `c` of `a + [c] + b`, when `a` has none, is
      `b`, and the text before it is `a`. */
  lemma AroundFirst(a: string, c: char, b: string)
    requires c !in a
    ensures c in a + [c] + b
    ensures UpTo(a + [c] + b, c) == a
    ensures AfterFirst(a + [c] + b, c) == b
  {
    IndexOfConcat(a, c, b);
    var s := a + [c] + b;
    assert s[..|a|] == a;
    assert s[|a| + 1..] == b;
  }

  /** `s.split(c)` for a one-character separator `c`: the maximal `c`-free
      pieces between the occurrences of `c`, never an empty array. */
  function Split(s: string, c: char): (parts: seq<string>)
    ensures |parts| >= 1
    ensures forall k :: 0 <= k < |parts| ==> c !in parts[k]
    ensures parts[0] == UpTo(s, c)
    ensures c !in s <==> |parts| == 1
    decreases |s|
  {
    if c !in s then [s]
    else [UpTo(s, c)] + Split(AfterFirst(s, c), c)
  }

  /** With a separator present, the second piece is the text between the
      first and the second separator (or the end). */
  lemma SplitSecond(s: string, c: char)
    requires c in s
    ensures |Split(s, c)| >= 2 && Split(s, c)[1] == UpTo(AfterFirst(s, c), c)
  {
  }

  /** `items.join(sep)`: no separator before the first item or after the last. */
  function Join(items: seq<string>, sep: string): (r: string)
    ensures |items| == 0 ==> r == []
    ensures |items| == 1 ==> r == items[0]
  {
    if |items| == 0 then []
    else if |items| == 1 then items[0]
    else items[0] + sep + Join(items[1..], sep)
  }

  /** Joining peels off the first item. */
  lemma JoinCons(a: string, rest: seq<string>, sep: string)
    ensures Join([a] + rest, sep) == if rest == [] then a else a + sep + Join(rest, sep)
  {
    assert ([a] + rest)[1..] == rest;
  }

  /** A separator inside an item cannot be told from the one between two
      items: moving the text after it into the next item gives the same
      join. */
  lemma {:induction false} JoinShiftSeparator(pre: seq<string>, x: string, y: string, z: string,
                                              post: seq<string>, sep: string)
    ensures Join(pre + [x + sep + y, z] + post, sep) == Join(pre + [x, y + sep + z] + post, sep)
  {
    if pre == [] {
      assert [] + [x + sep + y, z] + post == [x + sep + y] + ([z] + post);
      assert [] + [x, y + sep + z] + post == [x] + ([y + sep + z] + post);
      JoinCons(x + sep + y, [z] + post, sep);
      JoinCons(z, post, sep);
      JoinCons(x, [y + sep + z] + post, sep);
      JoinCons(y + sep + z, post, sep);
    } else {
      var l := pre + [x + sep + y, z] + post;
      var r := pre + [x, y + sep + z] + post;
      assert l == [pre[0]] + (pre[1..] + [x + sep + y, z] + post);
      assert r == [pre[0]] + (pre[1..] + [x, y + sep + z] + post);
      JoinShiftSeparator(pre[1..], x, y, z, post, sep);
      JoinCons(pre[0], pre[1..] + [x + sep + y, z] + post, sep);
      JoinCons(pre[0], pre[1..] + [x, y + sep + z] + post, sep);
    }
  }

  /** Splitting at the first separator peels off the first piece. */
  lemma SplitCons(a: string, c: char, b: string)
    requires c !in a
    ensures Split(a + [c] + b, c) == [a] + Split(b, c)
  {
    var s := a + [c] + b;
    IndexOfConcat(a, c, b);
    assert s[..|a|] == a;
    assert s[|a| + 1..] == b;
  }

  /** Joining the pieces back with the separator restores the input. */
  lemma {:induction false} JoinSplit(s: string, c: char)
    ensures Join(Split(s, c), [c]) == s
    decreases |s|
  {
    if c in s {
      var rest := AfterFirst(s, c);
      JoinSplit(rest, c);
      var parts := Split(s, c);
      assert parts[1..] == Split(rest, c);
    }
  }

  /** Splitting a join of separator-free pieces recovers the pieces. */
  lemma {:induction false} SplitJoin(parts: seq<string>, c: char)
    requires |parts| >= 1
    requires forall k :: 0 <= k < |parts| ==> c !in parts[k]
    ensures Split(Join(parts, [c]), c) == parts
  {
    if |parts| > 1 {
      SplitJoin(parts[1..], c);
      SplitCons(parts[0], c, Join(parts[1..], [c]));
      assert parts == [parts[0]] + parts[1..];
    }
  }

  /** A join contains a character only if an item or the separator does. */
  lemma {:induction false} JoinExcludes(items: seq<string>, sep: string, c: char)
    requires c !in sep
    requires forall k :: 0 <= k < |items| ==> c !in items[k]
    ensures c !in Join(items, sep)
  {
    if |items| > 1 {
      JoinExcludes(items[1..], sep, c);
    }
  }

  /** Two items joined: the separator once, between them. */
  lemma JoinPair(a: string, b: string, sep: string)
    ensures Join([a, b], sep) == a + sep + b
  {
    assert [a, b][1..] == [b];
  }

  /** An empty first part still leaves its separator. */
  lemma JoinEmptyFirst(b: string, sep: string)
    ensures Join(["", b], sep) == sep + b
  {
    JoinPair("", b, sep);
    assert "" + sep == sep;
  }

  /** `s.replace(c, "")`: deletes the first occurrence of `c` only. */
  function RemoveFirst(s: string, c: char): (r: string)
    ensures c !in s ==> r == s
    ensures c in s ==> |r| == |s| - 1 && r == UpTo(s, c) + AfterFirst(s, c)
  {
    if c in s then UpTo(s, c) + AfterFirst(s, c) else s
  }

  /** Removing a character never introduces one. */
  lemma RemoveFirstKeeps(s: string, c: char, d: char)
    ensures d !in s ==> d !in RemoveFirst(s, c)
  {
    if c in s {
      assert s == UpTo(s, c) + [c] + AfterFirst(s, c);
    }
  }

  /** The text after the first `c`, up to the next `c`, holds no character
      the whole string lacks. */
  lemma UpToAfterFirstKeeps(s: string, c: char, d: char)
    requires c in s
    ensures d !in s ==> d !in UpTo(AfterFirst(s, c), c)
  {
    var rest := AfterFirst(s, c);
    assert s == UpTo(s, c) + [c] + rest;
    if d !in s {
      assert d !in rest;
    }
  }
}

=== FILE: style.dfy ===
/** `stylePrompt`: the comma-separated style line assembled from the
    producer, vocalist, custom style and rhyme scheme selections. */
module Style {
  import opened Wrappers
  import opened JsString
  import opened Constants
  import opened Tags

  /** The four contributions, in the order the composer appends them. */
  datatype Kind = Producer | Vocalist | Custom | RhymeScheme

  function Rank(k: Kind): nat {
    match k
    case Producer => 0
    case Vocalist => 1
    case Custom => 2
    case RhymeScheme => 3
  }

  datatype Section = Section(kind: Kind, text: string)

  /** The four selections the composer reads. */
  datatype Selection = Selection(
    producer: string,
    vocalist: string,
    rhymeScheme: string,
    customStyle: string)

  /** Every non-empty selection names an entry the composer can look up;
      otherwise `cleanPromptTags(undefined)` would throw. */
  predicate Resolvable(t: Tables, sel: Selection) {
    && (sel.producer != "" ==> sel.producer in t.producers)
    && (sel.vocalist != "" ==> VocalistDetail(t, sel.vocalist).Some?)
    && (sel.rhymeScheme != "" ==> sel.rhymeScheme in t.rhymeSchemes)
  }

  /** Whether the composer appends a section of this kind: a table key when
      it is a non-empty string, the custom text when it is not blank. */
  predicate Selected(sel: Selection, k: Kind) {
    match k
    case Producer => sel.producer != ""
    case Vocalist => sel.vocalist != ""
    case Custom => !Blank(sel.customStyle)
    case RhymeScheme => sel.rhymeScheme != ""
  }

  /** What a selected kind contributes. */
  function SectionText(t: Tables, sel: Selection, k: Kind): string
    requires Resolvable(t, sel) && Selected(sel, k)
  {
    match k
    case Producer => CleanPromptTags(t.producers[sel.producer])
    case Vocalist => CleanPromptTags(VocalistDetail(t, sel.vocalist).value)
    case Custom => Trim(sel.customStyle)
    case RhymeScheme => CleanPromptTags(t.rhymeSchemes[sel.rhymeScheme])
  }

  predicate Present(sections: seq<Section>, k: Kind) {
    exists i :: 0 <= i < |sections| && sections[i].kind == k
  }

  /** Sections listed in strictly increasing rank. */
  predicate Ordered(sections: seq<Section>) {
    forall i, j :: 0 <= i < j < |sections| ==> Rank(sections[i].kind) < Rank(sections[j].kind)
  }

  /** No section of this kind has been pushed yet: every section present
      ranks below `n`. */
  predicate RanksBelow(sections: seq<Section>, n: nat) {
    forall i :: 0 <= i < |sections| ==> Rank(sections[i].kind) < n
  }

  /** One `if (...) sections.push(...)` step: a section of kind `k`, with its
      text, is appended exactly when that kind is selected. */
  function Push(t: Tables, sel: Selection, sections: seq<Section>, k: Kind): seq<Section>
    requires Resolvable(t, sel)
  {
    if Selected(sel, k) then sections + [Section(k, SectionText(t, sel, k))] else sections
  }

  /** The `sections` array after the four conditional pushes. */
  function Sections(t: Tables, sel: Selection): seq<Section>
    requires Resolvable(t, sel)
  {
    var afterProducer := Push(t, sel, [], Producer);
    var afterVocalist := Push(t, sel, afterProducer, Vocalist);
    var afterCustom := Push(t, sel, afterVocalist, Custom);
    Push(t, sel, afterCustom, RhymeScheme)
  }

  function Texts(sections: seq<Section>): (r: seq<string>)
    ensures |r| == |sections|
    ensures forall i :: 0 <= i < |r| ==> r[i] == sections[i].text
  {
    if |sections| == 0 then [] else [sections[0].text] + Texts(sections[1..])
  }

  /** `sections.join(', ')`. */
  function StylePrompt(t: Tables, sel: Selection): (r: string)
    requires Resolvable(t, sel)
  {
    Join(Texts(Sections(t, sel)), ", ")
  }

  /** Appending a section ranked above everything present keeps the
      sections in order. */
  lemma AppendOrdered(sections: seq<Section>, s: Section)
    requires Ordered(sections) && RanksBelow(sections, Rank(s.kind))
    ensures Ordered(sections + [s])
    ensures RanksBelow(sections + [s], Rank(s.kind) + 1)
  {
  }

  /** Appending a section adds its kind and keeps every kind present. */
  lemma AppendPresent(sections: seq<Section>, s: Section, j: Kind)
    ensures Present(sections + [s], j) <==> Present(sections, j) || s.kind == j
  {
    var r := sections + [s];
    if Present(sections, j) {
      var i :| 0 <= i < |sections| && sections[i].kind == j;
      assert r[i] == sections[i];
    }
    if s.kind == j {
      assert r[|sections|] == s;
    }
    if Present(r, j) {
      var i :| 0 <= i < |r| && r[i].kind == j;
      if i < |sections| {
        assert sections[i] == r[i];
      }
    }
  }

  /** Pushing a kind ranked above everything present keeps the sections in
      order, and afterwards everything ranks at most that kind. */
  lemma PushOrdered(t: Tables, sel: Selection, sections: seq<Section>, k: Kind)
    requires Resolvable(t, sel)
    requires Ordered(sections) && RanksBelow(sections, Rank(k))
    ensures Ordered(Push(t, sel, sections, k))
    ensures RanksBelow(Push(t, sel, sections, k), Rank(k) + 1)
  {
    if Selected(sel, k) {
      AppendOrdered(sections, Section(k, SectionText(t, sel, k)));
    }
  }

  /** After a push, a kind is present exactly when it was present before or
      it is the pushed kind and that kind is selected. */
  lemma PushPresent(t: Tables, sel: Selection, sections: seq<Section>, k: Kind, j: Kind)
    requires Resolvable(t, sel)
    ensures Present(Push(t, sel, sections, k), j) <==> Present(sections, j) || (j == k && Selected(sel, k))
  {
    if Selected(sel, k) {
      AppendPresent(sections, Section(k, SectionText(t, sel, k)), j);
    }
  }

  /** A section is of a selected kind and carries that kind's text. */
  predicate FaithfulSection(t: Tables, sel: Selection, s: Section)
    requires Resolvable(t, sel)
  {
    Selected(sel, s.kind) && s.text == SectionText(t, sel, s.kind)
  }

  /** Every pushed section is faithful. */
  predicate Faithful(t: Tables, sel: Selection, sections: seq<Section>)
    requires Resolvable(t, sel)
  {
    forall s :: s in sections ==> FaithfulSection(t, sel, s)
  }

  lemma AppendFaithful(t: Tables, sel: Selection, sections: seq<Section>, s: Section)
    requires Resolvable(t, sel)
    requires Faithful(t, sel, sections) && FaithfulSection(t, sel, s)
    ensures Faithful(t, sel, sections + [s])
  {
  }

  lemma PushFaithful(t: Tables, sel: Selection, sections: seq<Section>, k: Kind)
    requires Resolvable(t, sel)
    requires Faithful(t, sel, sections)
    ensures Faithful(t, sel, Push(t, sel, sections, k))
  {
    if Selected(sel, k) {
      AppendFaithful(t, sel, sections, Section(k, SectionText(t, sel, k)));
    }
  }

  /** The sections array holds each selected kind, and nothing else, in the
      fixed order producer, vocalist, custom, rhyme scheme, each with its
      text. */
  lemma SectionsSpec(t: Tables, sel: Selection)
    requires Resolvable(t, sel)
    ensures Ordered(Sections(t, sel))
    ensures forall k: Kind :: Present(Sections(t, sel), k) <==> Selected(sel, k)
    ensures Faithful(t, sel, Sections(t, sel))
  {
    var s0 := Push(t, sel, [], Producer);
    var s1 := Push(t, sel, s0, Vocalist);
    var s2 := Push(t, sel, s1, Custom);
    PushOrdered(t, sel, [], Producer);
    PushOrdered(t, sel, s0, Vocalist);
    PushOrdered(t, sel, s1, Custom);
    PushOrdered(t, sel, s2, RhymeScheme);
    PushFaithful(t, sel, [], Producer);
    PushFaithful(t, sel, s0, Vocalist);
    PushFaithful(t, sel, s1, Custom);
    PushFaithful(t, sel, s2, RhymeScheme);
    forall k: Kind ensures Present(Sections(t, sel), k) <==> Selected(sel, k) {
      PushPresent(t, sel, [], Producer, k);
      PushPresent(t, sel, s0, Vocalist, k);
      PushPresent(t, sel, s1, Custom, k);
      PushPresent(t, sel, s2, RhymeScheme, k);
    }
  }

  lemma PushSelected(t: Tables, sel: Selection, sections: seq<Section>, k: Kind)
    requires Resolvable(t, sel) && Selected(sel, k)
    ensures Push(t, sel, sections, k) == sections + [Section(k, SectionText(t, sel, k))]
  {
  }

  lemma PushSkipped(t: Tables, sel: Selection, sections: seq<Section>, k: Kind)
    requires Resolvable(t, sel) && !Selected(sel, k)
    ensures Push(t, sel, sections, k) == sections
  {
  }

  lemma TextsSingle(x: Section)
    ensures Texts([x]) == [x.text]
  {
  }

  lemma TextsPair(x: Section, y: Section)
    ensures Texts([x, y]) == [x.text, y.text]
  {
  }

  /** Nothing selected and blank custom text: the style line is empty. */
  lemma NothingSelected(t: Tables, sel: Selection)
    requires Resolvable(t, sel)
    requires sel.producer == "" && sel.vocalist == "" && sel.rhymeScheme == ""
    requires Blank(sel.customStyle)
    ensures StylePrompt(t, sel) == ""
  {
    PushSkipped(t, sel, [], Producer);
    PushSkipped(t, sel, [], Vocalist);
    PushSkipped(t, sel, [], Custom);
    PushSkipped(t, sel, [], RhymeScheme);
  }

  /** Only custom text: the style line is exactly that text trimmed, with no
      separator before or after it. */
  lemma OnlyCustom(t: Tables, sel: Selection)
    requires sel.producer == "" && sel.vocalist == "" && sel.rhymeScheme == ""
    ensures StylePrompt(t, sel) == Trim(sel.customStyle)
  {
    PushSkipped(t, sel, [], Producer);
    PushSkipped(t, sel, [], Vocalist);
    if Blank(sel.customStyle) {
      PushSkipped(t, sel, [], Custom);
      PushSkipped(t, sel, [], RhymeScheme);
    } else {
      var c := Section(Custom, Trim(sel.customStyle));
      PushSelected(t, sel, [], Custom);
      AppendSingles(c, c);
      TextsSingle(c);
      PushSkipped(t, sel, [c], RhymeScheme);
    }
  }

  lemma VinylExampleTrimmed()
    ensures Trim("Vinyl, 808s") == "Vinyl, 808s"
  {
    TrimExact("", "Vinyl, 808s", "");
    assert "" + "Vinyl, 808s" + "" == "Vinyl, 808s";
  }

  /** The custom-only example: "Vinyl, 808s" comes back unchanged. */
  lemma VinylExample(t: Tables)
    ensures StylePrompt(t, Selection("", "", "", "Vinyl, 808s")) == "Vinyl, 808s"
  {
    OnlyCustom(t, Selection("", "", "", "Vinyl, 808s"));
    VinylExampleTrimmed();
  }

  lemma ProducerAndVocalistTexts(t: Tables, sel: Selection)
    requires Resolvable(t, sel)
    requires sel.producer != "" && sel.vocalist != "" && Blank(sel.customStyle) && sel.rhymeScheme == ""
    ensures Texts(Sections(t, sel)) == [SectionText(t, sel, Producer), SectionText(t, sel, Vocalist)]
  {
    var p := Section(Producer, SectionText(t, sel, Producer));
    var v := Section(Vocalist, SectionText(t, sel, Vocalist));
    PushSelected(t, sel, [], Producer);
    AppendSingles(p, v);
    PushSelected(t, sel, [p], Vocalist);
    TextsPair(p, v);
    PushSkipped(t, sel, [p, v], Custom);
    PushSkipped(t, sel, [p, v], RhymeScheme);
  }

  lemma BlankProducer(t: Tables, sel: Selection)
    requires Resolvable(t, sel)
    requires sel.producer != "" && Blank(t.producers[sel.producer])
    ensures SectionText(t, sel, Producer) == ""
  {
  }

  /** The empty section of a blank producer description leaves no trace
      when it is the only section. */
  lemma LoneEmptySection(t: Tables, sel: Selection)
    requires Resolvable(t, sel)
    requires sel.producer != "" && Blank(t.producers[sel.producer])
    requires sel.vocalist == "" && Blank(sel.customStyle) && sel.rhymeScheme == ""
    ensures StylePrompt(t, sel) == ""
  {
    var p := Section(Producer, SectionText(t, sel, Producer));
    PushSelected(t, sel, [], Producer);
    AppendSingles(p, p);
    PushSkipped(t, sel, [p], Vocalist);
    PushSkipped(t, sel, [p], Custom);
    PushSkipped(t, sel, [p], RhymeScheme);
    TextsSingle(p);
    BlankProducer(t, sel);
  }

  /** A selected table entry always contributes a section, even one that
      cleans to the empty string: a producer whose description is blank
      still puts a separator in front of the vocalist's section. */
  lemma EmptySectionKept(t: Tables, sel: Selection)
    requires Resolvable(t, sel)
    requires sel.producer != "" && Blank(t.producers[sel.producer])
    requires sel.vocalist != "" && Blank(sel.customStyle) && sel.rhymeScheme == ""
    ensures StylePrompt(t, sel) == ", " + SectionText(t, sel, Vocalist)
  {
    var v := SectionText(t, sel, Vocalist);
    ProducerAndVocalistTexts(t, sel);
    BlankProducer(t, sel);
    assert Texts(Sections(t, sel)) == ["", v];
    JoinEmptyFirst(v, ", ");
  }

  /** A table section comes out of the tag cleaner and the custom section is
      trimmed custom text, so a section holds a `]` only if the custom text
      does. */
  lemma SectionTextExcludesBracket(t: Tables, sel: Selection, k: Kind)
    requires Resolvable(t, sel) && Selected(sel, k)
    requires ']' !in sel.customStyle
    ensures ']' !in SectionText(t, sel, k)
  {
    TrimKeeps(sel.customStyle, ']');
  }

  /** Faithful sections hold a `]` only if the custom text does. */
  lemma TextsExcludeBracket(t: Tables, sel: Selection, sections: seq<Section>)
    requires Resolvable(t, sel) && Faithful(t, sel, sections)
    requires ']' !in sel.customStyle
    ensures forall i :: 0 <= i < |Texts(sections)| ==> ']' !in Texts(sections)[i]
  {
    forall i | 0 <= i < |Texts(sections)| ensures ']' !in Texts(sections)[i] {
      assert sections[i] in sections;
      SectionTextExcludesBracket(t, sel, sections[i].kind);
    }
  }

  /** Every section except the custom one comes out of the tag cleaner, so
      the style line holds a `]` only if the custom text does. */
  lemma StyleExcludesBracket(t: Tables, sel: Selection)
    requires Resolvable(t, sel)
    requires ']' !in sel.customStyle
    ensures ']' !in StylePrompt(t, sel)
  {
    SectionsSpec(t, sel);
    TextsExcludeBracket(t, sel, Sections(t, sel));
    JoinExcludes(Texts(Sections(t, sel)), ", ", ']');
  }
}

=== FILE: tags.dfy ===
/** `cleanPromptTags`: turns descriptive text made of bracketed
    `[Label: value]` tags into the comma-separated list of the values. */
module Tags {
  import opened JsString

  /** The `.map` callback: a fragment with a colon keeps the second
      colon-separated piece, trimmed; a fragment without one loses its first
      `[` and is trimmed. */
  function CleanFragment(p: string): (r: string)
    ensures ':' !in r
    ensures ']' !in p ==> ']' !in r
    ensures '[' !in p ==> '[' !in r
  {
    var parts := Split(p, ':');
    if |parts| > 1 then
      SplitSecond(p, ':');
      TrimKeeps(parts[1], ':');
      UpToAfterFirstKeeps(p, ':', ']');
      TrimKeeps(parts[1], ']');
      UpToAfterFirstKeeps(p, ':', '[');
      TrimKeeps(parts[1], '[');
      Trim(parts[1])
    else
      var q := RemoveFirst(p, '[');
      assert ':' !in q;
      TrimKeeps(q, ':');
      RemoveFirstKeeps(p, '[', ']');
      TrimKeeps(q, ']');
      TrimKeeps(q, '[');
      Trim(q)
  }

  /** A fragment with a colon yields the trimmed text between its first and
      its second colon (or the end). */
  lemma CleanFragmentColon(p: string)
    requires ':' in p
    ensures CleanFragment(p) == Trim(UpTo(AfterFirst(p, ':'), ':'))
  {
    SplitSecond(p, ':');
  }

  /** A fragment without a colon loses its first `[` and is trimmed. */
  lemma CleanFragmentPlain(p: string)
    requires ':' !in p
    ensures CleanFragment(p) == Trim(RemoveFirst(p, '['))
  {
  }

  /** The `.filter(p => p.trim())` step: the fragments that are not blank,
      in their original order. */
  function NonBlank(parts: seq<string>): (r: seq<string>)
    ensures |r| <= |parts|
    ensures forall k :: 0 <= k < |r| ==> !Blank(r[k])
  {
    if |parts| == 0 then []
    else (if Blank(parts[0]) then [] else [parts[0]]) + NonBlank(parts[1..])
  }

  /** The filter keeps input order: it distributes over concatenation. */
  lemma {:induction false} NonBlankAppend(a: seq<string>, b: seq<string>)
    ensures NonBlank(a + b) == NonBlank(a) + NonBlank(b)
  {
    if a != [] {
      assert (a + b)[0] == a[0];
      assert (a + b)[1..] == a[1..] + b;
      NonBlankAppend(a[1..], b);
    } else {
      assert a + b == b;
    }
  }

  /** The filter keeps exactly the fragments that are not blank. */
  lemma {:induction false} NonBlankMembers(parts: seq<string>)
    ensures forall x :: x in NonBlank(parts) <==> x in parts && !Blank(x)
  {
    if parts != [] {
      NonBlankMembers(parts[1..]);
      assert parts == [parts[0]] + parts[1..];
    }
  }

  /** On one fragment the filter drops it exactly when it is blank. */
  lemma NonBlankSingle(p: string)
    ensures NonBlank([p]) == if Blank(p) then [] else [p]
  {
    assert [p][1..] == [];
  }

  /** The `.map` step over all kept fragments: one item per fragment, none
      holding a colon, and none holding a `]` unless its fragment did. */
  function CleanAll(fragments: seq<string>): (r: seq<string>)
    ensures |r| == |fragments|
    ensures forall k :: 0 <= k < |r| ==> ':' !in r[k]
    ensures (forall k :: 0 <= k < |fragments| ==> ']' !in fragments[k]) ==>
              forall k :: 0 <= k < |r| ==> ']' !in r[k]
  {
    if |fragments| == 0 then []
    else
      var head := CleanFragment(fragments[0]);
      var rest := CleanAll(fragments[1..]);
      ConsExcludes(head, rest, ':');
      if forall k :: 0 <= k < |fragments| ==> ']' !in fragments[k] then
        TailExcludes(fragments, ']');
        ConsExcludes(head, rest, ']');
        [head] + rest
      else
        [head] + rest
  }

  /** The map step cleans every fragment in place: the item at position `k`
      is the cleaned fragment at position `k`. */
  lemma {:induction false} CleanAllAt(fragments: seq<string>, k: int)
    requires 0 <= k < |fragments|
    ensures CleanAll(fragments)[k] == CleanFragment(fragments[k])
  {
    if k > 0 {
      CleanAllAt(fragments[1..], k - 1);
    }
  }

  /** The map step distributes over concatenation. */
  lemma {:induction false} CleanAllAppend(a: seq<string>, b: seq<string>)
    ensures CleanAll(a + b) == CleanAll(a) + CleanAll(b)
  {
    if a == [] {
      assert a + b == b;
    } else {
      assert (a + b)[1..] == a[1..] + b;
      CleanAllAppend(a[1..], b);
      var x := [CleanFragment(a[0])];
      assert x + CleanAll(a[1..]) + CleanAll(b) == x + (CleanAll(a[1..]) + CleanAll(b));
    }
  }

  /** The items `cleanPromptTags` joins: one per non-blank `]`-fragment. */
  function Items(s: string): seq<string>
  {
    CleanAll(NonBlank(Split(s, ']')))
  }

  /** No item holds a colon or a closing bracket. */
  lemma ItemsExclude(s: string)
    ensures forall k :: 0 <= k < |Items(s)| ==> ':' !in Items(s)[k] && ']' !in Items(s)[k]
  {
    NonBlankFrom(Split(s, ']'), ']');
  }

  /** Filtering keeps the fragments free of the separator they were split on. */
  lemma {:induction false} NonBlankFrom(parts: seq<string>, c: char)
    requires forall k :: 0 <= k < |parts| ==> c !in parts[k]
    ensures forall k :: 0 <= k < |NonBlank(parts)| ==> c !in NonBlank(parts)[k]
  {
    if |parts| > 0 {
      NonBlankFrom(parts[1..], c);
    }
  }

  lemma BlankHasNoTagChars(s: string)
    requires Blank(s)
    ensures ']' !in s && '[' !in s && ':' !in s
  {
    assert forall k :: 0 <= k < |s| ==> s[k] != ']' && s[k] != '[' && s[k] != ':';
  }

  /** A single fragment (no `]`) yields one item unless it is blank. */
  lemma ItemsOfFragment(a: string)
    requires ']' !in a
    ensures Items(a) == if Blank(a) then [] else [CleanFragment(a)]
  {
    assert Split(a, ']') == [a];
    assert NonBlank([a]) == (if Blank(a) then [] else [a]) + NonBlank([]);
  }

  /** `cleanPromptTags(str)`. */
  function CleanPromptTags(s: string): (r: string)
    ensures ']' !in r && ':' !in r
    ensures Blank(s) ==> r == ""
  {
    var items := Items(s);
    ItemsExclude(s);
    JoinExcludes(items, ", ", ']');
    JoinExcludes(items, ", ", ':');
    if Blank(s) then
      BlankHasNoTagChars(s);
      ItemsOfFragment(s);
      Join(items, ", ")
    else
      Join(items, ", ")
  }

  /** Items are produced fragment by fragment in input order: the text up
      to the first `]` contributes its item (if any) ahead of the rest. */
  lemma ItemsCons(a: string, b: string)
    requires ']' !in a
    ensures Items(a + "]" + b) == Items(a) + Items(b)
  {
    var rest := Split(b, ']');
    calc {
      Items(a + "]" + b);
      CleanAll(NonBlank(Split(a + "]" + b, ']')));
      { SplitCons(a, ']', b); }
      CleanAll(NonBlank([a] + rest));
      { NonBlankAppend([a], rest); }
      CleanAll(NonBlank([a]) + NonBlank(rest));
      { CleanAllAppend(NonBlank([a]), NonBlank(rest)); }
      CleanAll(NonBlank([a])) + Items(b);
      { assert Split(a, ']') == [a]; }
      Items(a) + Items(b);
    }
  }

  /** `label: value` keeps only the trimmed value, and with a further colon
      only the text between the first and the second colon survives. */
  lemma LabelledFragment(tag: string, value: string, rest: string)
    requires ':' !in tag && ':' !in value
    ensures CleanFragment(tag + ":" + value) == Trim(value)
    ensures CleanFragment(tag + ":" + value + ":" + rest) == Trim(value)
  {
    LabelOnly(tag, value);
    LabelWithRest(tag, value, rest);
  }

  lemma LabelOnly(tag: string, value: string)
    requires ':' !in tag && ':' !in value
    ensures CleanFragment(tag + ":" + value) == Trim(value)
  {
    var p := tag + ":" + value;
    AroundFirst(tag, ':', value);
    assert AfterFirst(p, ':') == value;
    assert UpTo(value, ':') == value;
    CleanFragmentColon(p);
  }

  lemma LabelWithRest(tag: string, value: string, rest: string)
    requires ':' !in tag && ':' !in value
    ensures CleanFragment(tag + ":" + value + ":" + rest) == Trim(value)
  {
    var q := tag + ":" + value + ":" + rest;
    RegroupFive(tag, ":", value, ":", rest);
    assert q == tag + [':'] + (value + ":" + rest);
    AroundFirst(tag, ':', value + ":" + rest);
    assert AfterFirst(q, ':') == value + ":" + rest;
    AroundFirst(value, ':', rest);
    assert UpTo(value + ":" + rest, ':') == value;
    CleanFragmentColon(q);
  }

  /** Text without brackets or colons comes back trimmed. */
  lemma PlainTextIsTrimmed(s: string)
    requires '[' !in s && ']' !in s && ':' !in s
    ensures CleanPromptTags(s) == Trim(s)
  {
    ItemsOfFragment(s);
  }

  /** On text without brackets, cleaning a second time changes nothing. */
  lemma CleanIdempotentWithoutBrackets(s: string)
    requires '[' !in s && ']' !in s
    ensures CleanPromptTags(CleanPromptTags(s)) == CleanPromptTags(s)
  {
    var r := CleanPromptTags(s);
    ItemsOfFragment(s);
    if Blank(s) {
      assert r == "";
      assert Blank(r);
    } else {
      assert r == CleanFragment(s);
      assert '[' !in r;
      PlainTextIsTrimmed(r);
      if ':' in s {
        TrimIdempotent(UpTo(AfterFirst(s, ':'), ':'));
      } else {
        TrimIdempotent(s);
      }
    }
  }

  /** Two non-blank fragments, each closed by `]`, give two items joined by ", ". */
  lemma TwoFragments(a: string, b: string)
    requires ']' !in a && ']' !in b && !Blank(a) && !Blank(b)
    ensures CleanPromptTags(a + "]" + (b + "]" + "")) == CleanFragment(a) + ", " + CleanFragment(b)
  {
    TwoFragmentItems(a, b);
    JoinPair(CleanFragment(a), CleanFragment(b), ", ");
  }

  lemma TwoFragmentItems(a: string, b: string)
    requires ']' !in a && ']' !in b && !Blank(a) && !Blank(b)
    ensures Items(a + "]" + (b + "]" + "")) == [CleanFragment(a), CleanFragment(b)]
  {
    ItemsCons(a, b + "]" + "");
    ItemsCons(b, "");
    ItemsOfFragment(a);
    ItemsOfFragment(b);
    ItemsOfFragment("");
    PairOfSingles(Items(a), Items(b), Items(""), CleanFragment(a), CleanFragment(b));
  }

  /** One non-blank fragment closed by `]` gives its item alone. */
  lemma OneFragment(a: string)
    requires ']' !in a && !Blank(a)
    ensures CleanPromptTags(a + "]" + "") == CleanFragment(a)
  {
    calc {
      Items(a + "]" + "");
      { ItemsCons(a, ""); }
      Items(a) + Items("");
      { ItemsOfFragment(a); ItemsOfFragment(""); }
      [CleanFragment(a)];
    }
  }

  lemma TrimAfterMargin(margin: string, value: string)
    requires Blank(margin) && Trimmed(value)
    ensures Trim(margin + value) == value
  {
    TrimExact(margin, value, "");
    assert margin + value + "" == margin + value;
  }

  /** `tag:` followed by a blank margin and a trimmed value yields the value. */
  lemma TagValue(tag: string, margin: string, value: string)
    requires ':' !in tag && ':' !in margin + value
    requires Blank(margin) && Trimmed(value)
    ensures CleanFragment(tag + ":" + (margin + value)) == value
  {
    LabelledFragment(tag, margin + value, "");
    TrimAfterMargin(margin, value);
  }

  /** The same with a second colon after the value: what follows it is dropped. */
  lemma TagValueWithColon(tag: string, margin: string, value: string, rest: string)
    requires ':' !in tag && ':' !in margin + value
    requires Blank(margin) && Trimmed(value)
    ensures CleanFragment(tag + ":" + (margin + value) + ":" + rest) == value
  {
    LabelledFragment(tag, margin + value, rest);
    TrimAfterMargin(margin, value);
  }

  lemma ProductionTag()
    ensures CleanFragment("[Production" + ":" + (" " + "Lo-Fi, Beats")) == "Lo-Fi, Beats"
  {
    TagValue("[Production", " ", "Lo-Fi, Beats");
  }

  lemma MoodTag()
    ensures CleanFragment(" [Mood" + ":" + (" " + "Chill")) == "Chill"
  {
    TagValue(" [Mood", " ", "Chill");
  }

  lemma DocumentedExampleLayout()
    ensures "[Production: Lo-Fi, Beats] [Mood: Chill]"
         == "[Production" + ":" + (" " + "Lo-Fi, Beats") + "]" + (" [Mood" + ":" + (" " + "Chill") + "]" + "")
  {
  }

  lemma DocumentedExampleFragments()
    ensures ']' !in "[Production" + ":" + (" " + "Lo-Fi, Beats")
    ensures ']' !in " [Mood" + ":" + (" " + "Chill")
    ensures !Blank("[Production" + ":" + (" " + "Lo-Fi, Beats"))
    ensures !Blank(" [Mood" + ":" + (" " + "Chill"))
  {
    assert !IsWhitespace(("[Production" + ":" + (" " + "Lo-Fi, Beats"))[0]);
    assert !IsWhitespace((" [Mood" + ":" + (" " + "Chill"))[1]);
  }

  lemma DocumentedExampleParts()
    ensures CleanPromptTags("[Production" + ":" + (" " + "Lo-Fi, Beats") + "]" + (" [Mood" + ":" + (" " + "Chill") + "]" + ""))
         == "Lo-Fi, Beats" + ", " + "Chill"
  {
    DocumentedExampleFragments();
    ProductionTag();
    MoodTag();
    TwoFragments("[Production" + ":" + (" " + "Lo-Fi, Beats"), " [Mood" + ":" + (" " + "Chill"));
  }

  lemma DocumentedExampleJoin()
    ensures "Lo-Fi, Beats" + ", " + "Chill" == "Lo-Fi, Beats, Chill"
  {
  }

  /** The example the source documents. */
  lemma DocumentedExample()
    ensures CleanPromptTags("[Production: Lo-Fi, Beats] [Mood: Chill]") == "Lo-Fi, Beats, Chill"
  {
    DocumentedExampleLayout();
    DocumentedExampleParts();
    DocumentedExampleJoin();
  }

  lemma TimeTag()
    ensures CleanFragment("[Mood" + ":" + (" " + "3") + ":" + "00 AM vibes") == "3"
  {
    TagValueWithColon("[Mood", " ", "3", "00 AM vibes");
  }

  lemma TimeExampleLayout()
    ensures "[Mood: 3:00 AM vibes]" == "[Mood" + ":" + (" " + "3") + ":" + "00 AM vibes" + "]" + ""
    ensures ']' !in "[Mood" + ":" + (" " + "3") + ":" + "00 AM vibes"
    ensures !Blank("[Mood" + ":" + (" " + "3") + ":" + "00 AM vibes")
  {
    assert !IsWhitespace(("[Mood" + ":" + (" " + "3") + ":" + "00 AM vibes")[0]);
  }

  /** A time inside a tag value is cut at its own colon: the label and
      everything after the second colon are lost. */
  lemma ColonInValueExample()
    ensures CleanPromptTags("[Mood: 3:00 AM vibes]") == "3"
  {
    TimeExampleLayout();
    TimeTag();
    OneFragment("[Mood" + ":" + (" " + "3") + ":" + "00 AM vibes");
  }
}

=== FILE: types.dfy ===
/** The record handed from the form to the generation client. */
module Types {
  import opened Wrappers

  /** `GenerationParams`: topic, vocalist and its detail are required;
      every other field may be `undefined`. */
  datatype GenerationParams = GenerationParams(
    topic: string,
    topicDescription: Option<string>,
    vocalist: string,
    vocalistDetail: string,
    producer: Option<string>,
    producerDetail: Option<string>,
    customStyle: Option<string>,
    rhymeScheme: Option<string>,
    rhymeSchemeDetail: Option<string>)
}

=== FILE: wrappers.dfy ===
/** The two wrappers the model shares: an optional value, standing for a
    JavaScript value that may be `undefined`, and the outcome of a call
    that either returns a value or throws an error. */
module Wrappers {

  datatype Option<+T> = None | Some(value: T) {

    /** The value, or `absent` when there is none. */
    function ValueOr(absent: T): T {
      match this
      case Some(v) => v
      case None => absent
    }
  }

  datatype Result<+R, +E> = Success(value: R) | Failure(error: E)
}
